=== FILE: README.md ===
# Pawn-loan ledger, modelled in Dafny

The program is a desktop ledger for a pawn shop: each loan is a cash
principal lent against a gold or silver item. The ledger records each new loan
as `Active`. A loan is marked `Returned` when the item is redeemed. The table
shows for every loan the days it has been held and the interest owed at one
global daily rate. Rows held for over a year are highlighted. At start-up the
program deletes returned loans older than three months, then warns about
active loans entered more than a year ago.

All of this logic is SQL embedded in one window class (`loan_app.py`). This
project lifts it into pure functions over an immutable sequence of loan
records, plus a key/value map for the settings table:

| file | module | what it holds |
|---|---|---|
| `wrappers.dfy` | `Wrappers` | `Option` (SQL `NULL`) and `Result` (a refused statement) |
| `seqs.dfy` | `Seqs` | order-preserving `Filter` and its laws; the purge, search and alert `WHERE` clauses are each one |
| `text.dfy` | `Text` | `LIKE '%q%'`: case-insensitive ASCII substring, reference predicate plus a scanning method |
| `loans.dfy` | `Loans` | the `Customers` row: `Loan`, `Material`, `Status`, the `CHECK` on material, ledger invariants |
| `ledger.dfy` | `Ledger` | insert with SQLite rowid assignment, "mark returned" update, retention purge |
| `settings.dfy` | `Settings` | the `Settings` table: default seeding, saving, reading the daily rate |
| `interest.dfy` | `Interest` | days held, interest owed, the "held over 365 days" highlight |
| `search.dfy` | `Search` | the search box filter over name, phone and item |
| `alerts.dfy` | `Alerts` | the overdue alert over active loans |
| `app.dfy` | `App` | the window's state, start-up sequence, button commands and table rows |

Times are whole seconds since 1970-01-01 00:00:00 UTC (SQLite's
`CURRENT_TIMESTAMP` is UTC with one-second resolution), so time 0 is a UTC
midnight and the day of a time is the time divided by 86400. The current time and the two calendar cutoffs are parameters:
`datetime('now', '-3 months')` and `DATE('now', '-1 year')`. Money and rates
are exact reals.

Material and status are datatypes holding the two non-NULL values each
`CHECK` constraint names. A `CHECK` would also let NULL through, but the
program never stores NULL in these columns: the material comes from a
two-item combo box and the status from literals in the SQL. So every operation
keeps them in range by construction. The
one place material arrives as text, the insert, goes through
`Loans.ParseMaterial`.

Behaviour of the code worth knowing:

- Marking a loan returned never fails. The `UPDATE` has no guard, so an
  unknown id changes nothing and a returned loan gets a new exit time.
- No statement rejects anything the dialogs produce. `NOT NULL` on name and
  phone never fires, because a text box yields '' rather than NULL. The combo
  box offers only the two materials the `CHECK` accepts. Principal and rate
  are bounded only by the spin boxes (see "Left out"). `Ledger.AddLoan` still
  models the `CHECK` refusing any other material text.
- The highlight test truncates the day count (`int(value) > 365`). So a row is
  highlighted only after 366 whole days, not as soon as the count passes 365.
- Saving a rate is an `UPDATE`, so it stores nothing when the rate row is
  missing. Start-up always seeds the row first, so this does not show.
- The loans are listed in ascending id (rowid) order, the order SQLite's scan
  of the table produces. The query itself has no `ORDER BY`.

## Model

| member | source | states |
|---|---|---|
| Text.Fold | loan_app.py:110-114 | upper-case ASCII letters fold to lower case, 32 code points up; every other character is left alone |
| Text.ContainsIgnoringCase | loan_app.py:110-114 | the scan answers true exactly when the query occurs somewhere in the text, ignoring ASCII case |
| Text.EmptyQueryContained | loan_app.py:114 | the pattern `%%` built from an empty query matches every text |
| Text.ContainsSelf | loan_app.py:114 | a text contains itself, and a query longer than the text never matches |
| Text.CaseOfQueryIrrelevant | loan_app.py:110-114 | two queries that differ only in ASCII case match the same texts |
| Text.GoInGoldRing | loan_app.py:110-114 | the query "go" matches the text "Gold Ring" |
| Loans.ParseMaterial | loan_app.py:22 | a material text is accepted exactly when it is "Gold" or "Silver", and it names the material it yields |
| Loans.MaterialRoundTrip | loan_app.py:22 | storing a material's name and checking it again gives back the same material |
| Ledger.MaxId | loan_app.py:19 | the largest id in the ledger bounds every id and belongs to some loan; it is 0 for an empty ledger |
| Ledger.NextId | loan_app.py:19 | the id given on insert is exactly one more than the largest stored id (so greater than every stored id), and is 1 for an empty table |
| Ledger.AddLoan | loan_app.py:159-166 | an insert appends one loan: Active, no exit time, entered now, with the given fields and an id no stored loan has; earlier loans stay as they were; a material other than Gold or Silver is refused and nothing is stored |
| Ledger.MarkReturned | loan_app.py:174-177 | every loan with the given id becomes Returned with exit time now, all its other fields kept; loans with other ids are untouched |
| Ledger.Purge | loan_app.py:40-42 | exactly the Returned loans with an exit time before the cutoff are deleted; active loans always survive; every surviving returned loan left the shop at or after the cutoff |
| Ledger.AddPreservesWellFormed | loan_app.py:159-166 | an insert keeps ids ascending and every loan's status and exit time consistent |
| Ledger.MarkReturnedPreservesWellFormed | loan_app.py:174-177 | marking a loan returned keeps the ledger consistent, if no loan was entered after now |
| Ledger.MarkUnknownIdIsNoOp | loan_app.py:174-177 | an id no loan carries leaves the ledger unchanged |
| Ledger.MarkTwiceKeepsLastExit | loan_app.py:174-177 | marking the same id twice equals marking it once at the later time: no error, and the exit time is overwritten |
| Ledger.PurgeIdempotent | loan_app.py:40-42 | a second purge with the same cutoff deletes nothing more |
| Ledger.PurgePreservesWellFormed | loan_app.py:40-42 | the purge keeps ids ascending and rows consistent |
| Ledger.PurgeOfNewestLowersNextId | loan_app.py:19 | whenever the purge deletes the loan with the largest id, the next insert gets an id no larger than that loan's: ids of deleted loans are handed out again |
| Ledger.PurgedIdIsReused | loan_app.py:19 | example: of loans 1 and 2, loan 2 is returned and purged, and the next insert gets id 2 again |
| Ledger.Close | loan_app.py:175-177 | on one row: the row with the id becomes Returned with exit time now and keeps every other field; any other row is unchanged |
| Ledger.Expired | loan_app.py:41-42 | only a Returned loan can be deleted; for a consistent loan, deletion means Returned with an exit time before the cutoff |
| Settings.Rate | loan_app.py:105 | the rate read is present exactly when the rate key is stored, and is its stored value |
| Settings.SeedDefault | loan_app.py:35-36 | after seeding a rate is stored; a stored rate is kept; an absent one becomes 0.1; other keys are untouched |
| Settings.SaveRate | loan_app.py:209-211 | a save overwrites a stored rate with the new value; with no rate row it stores nothing; other keys are untouched |
| Settings.SeedIdempotent | loan_app.py:35-36 | seeding twice is the same as seeding once |
| Settings.SavedRateSurvivesRestart | loan_app.py:209-211 | a rate saved after start-up is what is read back, and the next start-up's seeding does not reset it |
| Settings.FreshStoreGetsDefault | loan_app.py:35-36 | on an empty settings table the first start-up yields the rate 0.1 |
| Interest.HeldSeconds | loan_app.py:101 | the time held, from entry to the exit time or else to now, is never negative for a consistent loan entered by now |
| Interest.DaysHeld | loan_app.py:101 | days held is the time held divided by 86400 seconds, as an exact fraction, and is non-negative exactly when the time held is |
| Interest.Highlighted | loan_app.py:122 | a row is highlighted exactly when the loan has been held for at least 366 whole days |
| Interest.InterestOwed | loan_app.py:102-107 | interest is zero when no time has passed, and never negative for non-negative principal, rate and holding time |
| Interest.Truncate | loan_app.py:122 | Python `int()` rounds toward zero: the result is within one of the value, on the zero side |
| Interest.HighlightNeedsWholeDays | loan_app.py:122 | the truncated day count exceeds 365 exactly when at least 366 whole days have been held |
| Interest.HalfDayOverYearNotHighlighted | loan_app.py:122 | a loan held 365.5 days is past 365 days but not highlighted |
| Interest.OpenLoanAgesWithClock | loan_app.py:101 | while a loan has no exit time, one more day on the clock adds exactly one day held |
| Interest.ClosedLoanIsFrozen | loan_app.py:101-106 | once a loan has an exit time, its days held and interest do not depend on the current time |
| Interest.InterestMonotone | loan_app.py:102-107 | with non-negative principal, rate and days held, interest does not decrease as days held or the rate grow |
| Interest.TenDaysAtDefaultRate | loan_app.py:102-107 | a principal of 1000 held ten days at 0.1 percent a day owes 10 |
| Search.Matches | loan_app.py:110-112 | the empty query matches every loan, and a query longer than name, phone and item matches none |
| Search.Search | loan_app.py:109-114 | the result lists loans of the ledger only, each matching the query in name, phone or item, and every matching loan is listed |
| Search.EmptyQueryListsAll | loan_app.py:109-114 | the empty query lists the whole ledger, Active and Returned, in order |
| Search.QueryCaseIrrelevant | loan_app.py:109-114 | queries differing only in ASCII case list the same loans |
| Search.SearchKeepsIdOrder | loan_app.py:108-114 | the search result stays in ascending id order |
| Search.GoFindsGoldRing | loan_app.py:109-114 | a loan whose item is "Gold Ring" is found by the query "go" |
| Alerts.Day | loan_app.py:219 | `DATE()` gives the day whose midnight is the last one at or before the time |
| Alerts.Overdue | loan_app.py:218-219 | a loan is overdue exactly when it is Active and was entered before the midnight that starts the cutoff day |
| Alerts.OverdueLoans | loan_app.py:217-219 | exactly the Active loans entered on a day before the cutoff day are selected |
| Alerts.OverdueKeepsIdOrder | loan_app.py:217-219 | the overdue loans stay in ascending id order, so each is listed once |
| Alerts.Alerts | loan_app.py:217-225 | every alert line is the name, item and entry time of some overdue loan, and every overdue loan has its line; there is exactly one line per overdue loan, in the same order |
| Alerts.ReturnedNeverOverdue | loan_app.py:217-219 | a Returned loan is never selected, however old |
| Alerts.SameDaySameVerdict | loan_app.py:219 | two loans with the same status entered on the same day are alerted alike, whatever the time of day |
| App.RowOf | loan_app.py:93-107 | a row carries its loan's stored columns; interest is missing exactly when no rate is stored; the row is highlighted exactly after 366 whole days; no time held means zero days and zero interest |
| App.Table | loan_app.py:90-114 | one row per matching loan, in order, carrying that loan's columns, its days held, its highlight, and its interest at the stored rate (missing exactly when no rate is stored) |
| App.Startup | loan_app.py:34-42 | start-up keeps exactly the loans that have not expired, keeps every active loan, keeps a stored rate and otherwise stores 0.1, and alerts on the same loans as the ledger before the purge |
| App.AddLoan | loan_app.py:159-166 | "Add New Loan" keeps every earlier loan and appends one Active loan entered now, with the given fields and a fresh id, leaving the settings alone; it is refused exactly for a material other than Gold or Silver |
| App.ReturnLoan | loan_app.py:174-177 | "Mark Returned" keeps the settings; loans with the id become Returned with exit time now and keep every other field; other loans are untouched |
| App.SaveRate | loan_app.py:208-211 | "Save" leaves the loans alone and, when a rate row is stored, makes the saved value the rate read back |
| App.PurgeHidesNoAlert | loan_app.py:40-42 | the purge never removes a loan the overdue alert would list, so alerting after the purge is the same as alerting before it |
| App.StartupKeepsWellFormed | loan_app.py:34-42 | start-up keeps a well-formed ledger (ids ascending, rows consistent) well formed; with the rate App.Startup guarantees, the state is valid |
| App.StartupIdempotent | loan_app.py:34-42 | a second start-up with the same cutoffs changes neither loans nor settings and raises the same alerts |
| App.CommandsPreserveValid | loan_app.py:159-177 | adding a loan, returning one (with a clock not behind any entry) and saving a rate all keep the state valid |
| App.NewLoanListedActive | loan_app.py:159-166 | in any state with a stored rate, a loan just added is the last row of the unfiltered table: Active, zero days held, zero interest, not highlighted |
| App.SavedRateAppliesToEveryRow | loan_app.py:102-107 | after a save, every row's interest is computed at the new rate, for old and new loans alike |
| App.RowAfterClose | loan_app.py:174-177 | after "Mark Returned" the row of the marked loan shows Returned, with the same days held if it was active; any other loan's row is unchanged |
| App.ReturnedLoanShowsReturned | loan_app.py:174-177 | over the whole unfiltered table, only the rows of the marked id change, to Returned |
| App.AlertAndHighlightDiffer | loan_app.py:122 | the alert test and the highlight test differ: one loan is alerted but not highlighted, another is highlighted but not alerted |

## Left out

- The window, table, dialogs, buttons, message boxes and signal wiring (loan_app.py:45-88, 126-158, 181-206, 227-231): presentation only. The alert model stops at the list of lines; the message box text is not modelled.
- The SQLite connection, cursor, commits and close (loan_app.py:14-15, 37, 43, 233-235): resource handling with no ledger semantics.
- Calendar arithmetic for `'-3 months'` and `'-1 year'`: the cutoffs are parameters. The `strftime` formatting of the entry date is not modelled; rows carry the timestamp.
- Floating-point `JULIANDAY` differences and `ROUND(..., 2)`: days and interest are exact reals, and rounding is not modelled.
- `%` and `_` wildcards typed into the search box, and case folding outside ASCII: the search is a plain case-insensitive ASCII substring match.
- The spin-box ranges for principal (100 to 1,000,000) and rate (0.001 to 10): the ledger never checks them.
- The conversions between the rate and its stored text (`str(new_rate)`, `float(...)`): the settings map holds numbers.
- Reading the current rate into the settings dialog (loan_app.py:194-196): this is `Settings.Rate`. The dialog itself is UI.
- The unused `InterestRate` column: it is never written or read.
- The guard on a selected row in "Mark Returned" and the id arriving as text (loan_app.py:171-173): the model takes the id as a number.
- SQLite's fallback to a random unused rowid once the largest id reaches 2^63 - 1: ids are unbounded.
- Interest.InterestOwed: its contract states only that interest is zero after no time and is never negative. The formula principal × days × rate / 100 is the body. Its consequences are stated by Interest.InterestMonotone, Interest.TenDaysAtDefaultRate and App.SavedRateAppliesToEveryRow.

=== FILE: alerts.dfy ===
/** The overdue alert shown once at start-up: the active loans entered on a
    calendar day before the day one year ago. The comparison is between
    dates (`DATE(EntryDate) < DATE('now', '-1 year')`), so the time of day
    plays no part; the day one year back is supplied by the caller. */
module Alerts {
  import opened Loans
  import Seqs

  /** One line of the alert message. */
  datatype Alert = Alert(name: string, item: string, entry: Time)

  function AlertOf(l: Loan): Alert {
    Alert(l.name, l.item, l.entry)
  }

  /** The day number of a timestamp (SQLite `DATE`): the day whose midnight
      is the last one at or before `t`. */
  function Day(t: Time): (d: int)
    ensures d * SecondsPerDay <= t < (d + 1) * SecondsPerDay
  {
    t / SecondsPerDay
  }

  /** An active loan entered on a day before `cutoffDay`, that is, before
      the midnight that starts the cutoff day. */
  predicate Overdue(l: Loan, cutoffDay: int)
    ensures Overdue(l, cutoffDay) <==> l.status == Active && l.entry < cutoffDay * SecondsPerDay
  {
    l.status == Active && Day(l.entry) < cutoffDay
  }

  /** The loans the alert is about, in ledger order. */
  function OverdueLoans(ls: seq<Loan>, cutoffDay: int): (r: seq<Loan>)
    ensures |r| <= |ls|
    ensures forall i :: 0 <= i < |r| ==> r[i] in ls && r[i].status == Active && Day(r[i].entry) < cutoffDay
    ensures forall i :: 0 <= i < |ls| && ls[i].status == Active && Day(ls[i].entry) < cutoffDay ==> ls[i] in r
  {
    Seqs.Filter((l: Loan) => Overdue(l, cutoffDay), ls)
  }

  /** The alert lines: one per overdue loan, and none for any other loan. */
  function Alerts(ls: seq<Loan>, cutoffDay: int): (r: seq<Alert>)
    ensures forall i :: 0 <= i < |r| ==>
      exists j :: 0 <= j < |ls| && Overdue(ls[j], cutoffDay) && r[i] == AlertOf(ls[j])
    ensures forall j :: 0 <= j < |ls| && Overdue(ls[j], cutoffDay) ==> AlertOf(ls[j]) in r
    ensures |r| == |OverdueLoans(ls, cutoffDay)|
    ensures forall i :: 0 <= i < |r| ==> r[i] == AlertOf(OverdueLoans(ls, cutoffDay)[i])
  {
    var o := OverdueLoans(ls, cutoffDay);
    var r := seq(|o|, i requires 0 <= i < |o| => AlertOf(o[i]));
    forall i | 0 <= i < |r|
      ensures exists j :: 0 <= j < |ls| && Overdue(ls[j], cutoffDay) && r[i] == AlertOf(ls[j])
    {
      var j :| 0 <= j < |ls| && ls[j] == o[i];
    }
    assert forall j :: 0 <= j < |ls| && Overdue(ls[j], cutoffDay) ==> AlertOf(ls[j]) in r by {
      forall j | 0 <= j < |ls| && Overdue(ls[j], cutoffDay)
        ensures AlertOf(ls[j]) in r
      {
        var k :| 0 <= k < |o| && o[k] == ls[j];
        assert r[k] == AlertOf(ls[j]);
      }
    }
    r
  }

  /** The overdue loans keep the ledger's ascending id order, so each is
      listed once. */
  lemma OverdueKeepsIdOrder(ls: seq<Loan>, cutoffDay: int)
    requires WellFormed(ls)
    ensures WellFormed(OverdueLoans(ls, cutoffDay))
  {
    Seqs.FilterKeepsAscending((l: Loan) => Overdue(l, cutoffDay), IdOf, ls);
  }

  /** A returned loan is never among the overdue loans, however old. */
  lemma ReturnedNeverOverdue(ls: seq<Loan>, cutoffDay: int, l: Loan)
    requires l.status == Returned
    ensures l !in OverdueLoans(ls, cutoffDay)
  {
  }

  /** Two loans entered on the same calendar day are alerted alike, whatever
      their times of day. */
  lemma SameDaySameVerdict(a: Loan, b: Loan, cutoffDay: int)
    requires a.status == b.status
    requires Day(a.entry) == Day(b.entry)
    ensures Overdue(a, cutoffDay) <==> Overdue(b, cutoffDay)
  {
  }
}

=== FILE: app.dfy ===
/** The ledger as the window drives it: the stored state (loans and
    settings), the start-up sequence, the commands behind the three buttons,
    and the rows of the main table. The clock and the calendar cutoffs are
    passed in by the caller. */
module App {
  import opened Wrappers
  import opened Loans
  import Ledger
  import Settings
  import Interest
  import Search
  import Alerts
  import Seqs

  datatype Db = Db(loans: seq<Loan>, settings: Settings.Store)

  /** The state every command keeps: a well-formed ledger and a stored rate. */
  ghost predicate Valid(db: Db) {
    WellFormed(db.loans) && Settings.RateKey in db.settings
  }

  /** One row of the main table. `interest` is `None` when no rate is stored. */
  datatype Row = Row(
    id: nat,
    name: string,
    phone: string,
    material: Material,
    item: string,
    entry: Time,
    status: Status,
    days: real,
    interest: Option<real>,
    highlighted: bool)

  /** The `SELECT` list for one loan: its stored columns, its days held,
      its interest at the stored rate (`NULL` without one) and the highlight. */
  function RowOf(l: Loan, s: Settings.Store, now: Time): (r: Row)
    ensures r.id == l.id && r.name == l.name && r.phone == l.phone && r.material == l.material
    ensures r.item == l.item && r.entry == l.entry && r.status == l.status
    ensures r.interest.None? <==> Settings.RateKey !in s
    ensures r.highlighted <==> Interest.HeldSeconds(l, now) >= 366 * SecondsPerDay
    ensures Interest.HeldSeconds(l, now) == 0 ==> r.days == 0.0 && (r.interest.Some? ==> r.interest.value == 0.0)
  {
    var interest :=
      match Settings.Rate(s)
      case None => None
      case Some(rate) => Some(Interest.InterestOwed(l, rate, now));
    Row(l.id, l.name, l.phone, l.material, l.item, l.entry, l.status,
        Interest.DaysHeld(l, now), interest, Interest.Highlighted(l, now))
  }

  /** The table for search text `q`: one row per matching loan, in ledger
      order, each carrying that loan's own figures at the one global rate. */
  function Table(db: Db, q: string, now: Time): (rows: seq<Row>)
    ensures |rows| == |Search.Search(db.loans, q)|
    ensures forall i :: 0 <= i < |rows| ==>
      var l := Search.Search(db.loans, q)[i];
      && rows[i].id == l.id && rows[i].status == l.status
      && rows[i].name == l.name && rows[i].phone == l.phone && rows[i].material == l.material
      && rows[i].item == l.item && rows[i].entry == l.entry
      && rows[i].days == Interest.DaysHeld(l, now)
      && rows[i].highlighted == Interest.Highlighted(l, now)
      && (rows[i].interest.Some? <==> Settings.RateKey in db.settings)
      && (Settings.RateKey in db.settings ==>
            rows[i].interest == Some(Interest.InterestOwed(l, db.settings[Settings.RateKey], now)))
  {
    var found := Search.Search(db.loans, q);
    seq(|found|, i requires 0 <= i < |found| => RowOf(found[i], db.settings, now))
  }

  /** Start-up: seed the default rate when none is stored, purge the returned
      loans whose exit precedes `purgeCutoff` (three months back), then list
      the overdue alerts against `alertCutoffDay` (the day one year back). */
  function Startup(db: Db, purgeCutoff: Time, alertCutoffDay: int): (r: (Db, seq<Alerts.Alert>))
    ensures r.0.loans == Ledger.Purge(db.loans, purgeCutoff)
    ensures forall l :: l in r.0.loans <==> l in db.loans && !Ledger.Expired(l, purgeCutoff)
    ensures Settings.RateKey in r.0.settings
    ensures Settings.RateKey in db.settings ==> r.0.settings == db.settings
    ensures Settings.RateKey !in db.settings ==> Settings.Rate(r.0.settings) == Some(Settings.DefaultRate)
    ensures forall i :: 0 <= i < |r.0.loans| ==> !Ledger.Expired(r.0.loans[i], purgeCutoff)
    ensures forall i :: 0 <= i < |db.loans| && db.loans[i].status == Active ==> db.loans[i] in r.0.loans
    ensures r.1 == Alerts.Alerts(db.loans, alertCutoffDay)
  {
    var loans := Ledger.Purge(db.loans, purgeCutoff);
    PurgeHidesNoAlert(db.loans, purgeCutoff, alertCutoffDay);
    (Db(loans, Settings.SeedDefault(db.settings)), Alerts.Alerts(loans, alertCutoffDay))
  }

  /** "Add New Loan": insert a loan entered at `now`; a rejected material
      leaves the state as it was. */
  function AddLoan(db: Db, name: string, phone: string, material: string,
                   item: string, principal: real, now: Time): (r: Result<Db, Ledger.AddError>)
    ensures r.Ok? ==> r.value.settings == db.settings && |r.value.loans| == |db.loans| + 1
    ensures r.Ok? ==> r.value.loans[..|db.loans|] == db.loans
    ensures r.Ok? ==>
      var n := r.value.loans[|db.loans|];
      && n.status == Active && n.exit == None && n.entry == now
      && n.name == name && n.phone == phone && MaterialName(n.material) == material
      && n.item == item && n.principal == principal
      && (forall i :: 0 <= i < |db.loans| ==> db.loans[i].id != n.id)
    ensures r.Err? <==> ParseMaterial(material).None?
    ensures r.Err? ==> r.error == Ledger.MaterialRejected(material)
  {
    match Ledger.AddLoan(db.loans, name, phone, material, item, principal, now)
    case Err(e) => Err(e)
    case Ok(loans) => Ok(db.(loans := loans))
  }

  /** "Mark Returned" on the loan with id `id`. */
  function ReturnLoan(db: Db, id: int, now: Time): (r: Db)
    ensures r.settings == db.settings
    ensures |r.loans| == |db.loans|
    ensures forall i :: 0 <= i < |db.loans| && db.loans[i].id != id ==> r.loans[i] == db.loans[i]
    ensures forall i :: 0 <= i < |db.loans| && db.loans[i].id == id ==>
      && r.loans[i].status == Returned && r.loans[i].exit == Some(now)
      && r.loans[i].(status := db.loans[i].status, exit := db.loans[i].exit) == db.loans[i]
  {
    db.(loans := Ledger.MarkReturned(db.loans, id, now))
  }

  /** "Save" in the interest settings dialog. */
  function SaveRate(db: Db, rate: real): (r: Db)
    ensures r.loans == db.loans
    ensures Settings.RateKey in db.settings ==> Settings.Rate(r.settings) == Some(rate)
  {
    db.(settings := Settings.SaveRate(db.settings, rate))
  }

  /** Alerts are computed after the purge, yet the purge never hides one:
      it deletes only returned loans and the alert lists only active ones. */
  lemma PurgeHidesNoAlert(ls: seq<Loan>, purgeCutoff: Time, alertCutoffDay: int)
    ensures Alerts.OverdueLoans(Ledger.Purge(ls, purgeCutoff), alertCutoffDay)
         == Alerts.OverdueLoans(ls, alertCutoffDay)
    ensures Alerts.Alerts(Ledger.Purge(ls, purgeCutoff), alertCutoffDay)
         == Alerts.Alerts(ls, alertCutoffDay)
  {
    Seqs.FilterAbsorbs((l: Loan) => Alerts.Overdue(l, alertCutoffDay),
                       (l: Loan) => !Ledger.Expired(l, purgeCutoff), ls);
  }

  /** Start-up keeps a well-formed ledger well formed; with the rate it
      seeds, the state it leaves is valid. */
  lemma StartupKeepsWellFormed(db: Db, purgeCutoff: Time, alertCutoffDay: int)
    requires WellFormed(db.loans)
    ensures WellFormed(Startup(db, purgeCutoff, alertCutoffDay).0.loans)
  {
    Ledger.PurgePreservesWellFormed(db.loans, purgeCutoff);
  }

  /** A second start-up with the same cutoffs changes nothing and raises the
      same alerts. */
  lemma StartupIdempotent(db: Db, purgeCutoff: Time, alertCutoffDay: int)
    ensures var once := Startup(db, purgeCutoff, alertCutoffDay);
      Startup(once.0, purgeCutoff, alertCutoffDay) == once
  {
    var once := Startup(db, purgeCutoff, alertCutoffDay);
    Ledger.PurgeIdempotent(db.loans, purgeCutoff);
    PurgeHidesNoAlert(db.loans, purgeCutoff, alertCutoffDay);
    PurgeHidesNoAlert(once.0.loans, purgeCutoff, alertCutoffDay);
    Settings.SeedIdempotent(db.settings);
  }

  /** Every command keeps the state valid; marking a loan returned needs a
      clock that has not gone back past any entry time. */
  lemma CommandsPreserveValid(db: Db, name: string, phone: string, material: string,
                              item: string, principal: real, id: int, rate: real, now: Time)
    requires Valid(db)
    ensures var r := AddLoan(db, name, phone, material, item, principal, now);
      r.Ok? ==> Valid(r.value)
    ensures EnteredBy(db.loans, now) ==> Valid(ReturnLoan(db, id, now))
    ensures Valid(SaveRate(db, rate))
  {
    Ledger.AddPreservesWellFormed(db.loans, name, phone, material, item, principal, now);
    if EnteredBy(db.loans, now) {
      Ledger.MarkReturnedPreservesWellFormed(db.loans, id, now);
    }
  }

  /** A loan just added shows up in the unfiltered table as the last row:
      active, held for no time, owing nothing. */
  lemma NewLoanListedActive(db: Db, name: string, phone: string, material: string,
                            item: string, principal: real, now: Time)
    requires Settings.RateKey in db.settings
    requires ParseMaterial(material).Some?
    ensures var r := AddLoan(db, name, phone, material, item, principal, now);
      r.Ok? &&
      var rows := Table(r.value, "", now);
      && |rows| == |db.loans| + 1
      && rows[|db.loans|].status == Active
      && rows[|db.loans|].days == 0.0
      && rows[|db.loans|].interest == Some(0.0)
      && rows[|db.loans|].highlighted == false
  {
    var r := AddLoan(db, name, phone, material, item, principal, now);
    Search.EmptyQueryListsAll(r.value.loans);
    var l := r.value.loans[|db.loans|];
    assert Interest.HeldSeconds(l, now) == 0;
    Interest.HighlightNeedsWholeDays(l, now);
  }

  /** The rate is global: after a save, every row's interest is computed at
      the new rate, for loans opened before the change as much as after. */
  lemma SavedRateAppliesToEveryRow(db: Db, rate: real, q: string, now: Time)
    requires Settings.RateKey in db.settings
    ensures var rows := Table(SaveRate(db, rate), q, now);
      forall i :: 0 <= i < |rows| ==>
        rows[i].interest == Some(Interest.InterestOwed(Search.Search(db.loans, q)[i], rate, now))
  {
  }

  /** The row of one loan before and after the update of "Mark Returned". */
  lemma RowAfterClose(l: Loan, s: Settings.Store, id: int, now: Time)
    requires Consistent(l)
    ensures var before, after := RowOf(l, s, now), RowOf(Ledger.Close(l, id, now), s, now);
      if l.id == id then after.status == Returned && (l.status == Active ==> after.days == before.days)
      else after == before
  {
  }

  /** Returning a loan shows it as `Returned`; an active loan returned now
      keeps the days held it had just before; no other loan's row changes. */
  lemma ReturnedLoanShowsReturned(db: Db, id: int, now: Time)
    requires WellFormed(db.loans)
    ensures var after := Table(ReturnLoan(db, id, now), "", now);
      var before := Table(db, "", now);
      && |after| == |before| == |db.loans|
      && forall i :: 0 <= i < |after| ==>
        if db.loans[i].id == id then after[i].status == Returned && (before[i].status == Active ==> after[i].days == before[i].days)
        else after[i] == before[i]
  {
    var db' := ReturnLoan(db, id, now);
    Search.EmptyQueryListsAll(db.loans);
    Search.EmptyQueryListsAll(db'.loans);
    var after := Table(db', "", now);
    var before := Table(db, "", now);
    forall i | 0 <= i < |after|
      ensures if db.loans[i].id == id then after[i].status == Returned && (before[i].status == Active ==> after[i].days == before[i].days)
        else after[i] == before[i]
    {
      assert before[i] == RowOf(db.loans[i], db.settings, now);
      assert db'.loans[i] == Ledger.Close(db.loans[i], id, now);
      assert after[i] == RowOf(db'.loans[i], db.settings, now);
      RowAfterClose(db.loans[i], db.settings, id, now);
    }
  }

  /** The two "over a year" tests are different: a loan can be alerted yet
      not highlighted, and highlighted yet not alerted. The first loan was
      entered at 23:00 on day 0 and is viewed at 01:00 on day 366, when the
      day one year back is day 1; the second was returned after 400 days. */
  lemma AlertAndHighlightDiffer()
    ensures var now := 366 * 86400 + 3600;
      var a := Loan(1, "A", "1", Gold, "Ring", 23 * 3600, None, 1000.0, Active);
      Alerts.Overdue(a, 1) && !Interest.Highlighted(a, now)
    ensures var b := Loan(2, "B", "2", Silver, "Chain", 0, Some(400 * 86400), 1000.0, Returned);
      !Alerts.Overdue(b, 1) && Interest.Highlighted(b, 500 * 86400)
  {
    var now := 366 * 86400 + 3600;
    var a := Loan(1, "A", "1", Gold, "Ring", 23 * 3600, None, 1000.0, Active);
    Interest.HighlightNeedsWholeDays(a, now);
    var b := Loan(2, "B", "2", Silver, "Chain", 0, Some(400 * 86400), 1000.0, Returned);
    Interest.HighlightNeedsWholeDays(b, 500 * 86400);
  }
}

=== FILE: interest.dfy ===
/** The figures the ledger table shows for each loan: days held, interest
    owed at the global daily rate, and whether the row is highlighted as held
    for over a year. Day counts are exact fractions of a day; the rounding of
    interest to two decimals is not modelled. */
module Interest {
  import opened Loans

  /** Seconds from entry to the exit time, or to `now` while the loan is
      open (`COALESCE(ExitDate, datetime('now'))`). */
  function HeldSeconds(l: Loan, now: Time): (s: int)
    ensures Consistent(l) && l.entry <= now ==> s >= 0
  {
    l.exit.GetOr(now) - l.entry
  }

  /** Days held as a fractional day count (a `JULIANDAY` difference). */
  function DaysHeld(l: Loan, now: Time): (d: real)
    ensures d * SecondsPerDay as real == HeldSeconds(l, now) as real
    ensures d >= 0.0 <==> HeldSeconds(l, now) >= 0
  {
    HeldSeconds(l, now) as real / SecondsPerDay as real
  }

  /** Interest owed: principal times days held times the daily rate in
      percent. It is zero when no time has passed and never negative for
      non-negative inputs. */
  function InterestOwed(l: Loan, rate: real, now: Time): (r: real)
    ensures HeldSeconds(l, now) == 0 ==> r == 0.0
    ensures l.principal >= 0.0 && rate >= 0.0 && HeldSeconds(l, now) >= 0 ==> r >= 0.0
  {
    var days := DaysHeld(l, now);
    assert l.principal >= 0.0 && rate >= 0.0 && days >= 0.0 ==> l.principal * days >= 0.0;
    l.principal * days * rate / 100.0
  }

  /** Python's `int()` on a number: truncation toward zero. */
  function Truncate(x: real): (n: int)
    ensures x >= 0.0 ==> n as real <= x < n as real + 1.0
    ensures x < 0.0 ==> n as real - 1.0 < x <= n as real
  {
    if x >= 0.0 then x.Floor else -((-x).Floor)
  }

  /** The row colouring test (`int(value) > 365`): the truncated day count
      exceeds 365, which happens exactly after 366 whole days. */
  predicate Highlighted(l: Loan, now: Time)
    ensures Highlighted(l, now) <==> HeldSeconds(l, now) >= 366 * SecondsPerDay
  {
    HighlightNeedsWholeDays(l, now);
    Truncate(DaysHeld(l, now)) > 365
  }

  /** Because of the truncation the day count passes 365 after truncation
      only once 366 whole days have passed, not as soon as the fractional
      count exceeds 365. */
  lemma HighlightNeedsWholeDays(l: Loan, now: Time)
    ensures Truncate(DaysHeld(l, now)) > 365 <==> HeldSeconds(l, now) >= 366 * SecondsPerDay
  {
    var h := HeldSeconds(l, now);
    var d := DaysHeld(l, now);
    assert d * 86400.0 == h as real;
    if h >= 366 * SecondsPerDay {
      assert d >= 366.0;
    } else if h >= 0 {
      assert d < 366.0;
    } else {
      assert d < 0.0;
    }
  }

  /** A loan held 365 and a half days is not highlighted. */
  lemma HalfDayOverYearNotHighlighted(l: Loan, now: Time)
    requires HeldSeconds(l, now) == 365 * SecondsPerDay + SecondsPerDay / 2
    ensures DaysHeld(l, now) > 365.0
    ensures !Highlighted(l, now)
  {
    HighlightNeedsWholeDays(l, now);
  }

  /** While a loan is open, each day of the clock adds one day held. */
  lemma OpenLoanAgesWithClock(l: Loan, now: Time)
    requires l.exit.None?
    ensures DaysHeld(l, now + SecondsPerDay) == DaysHeld(l, now) + 1.0
  {
  }

  /** Once a loan has an exit time, its days held and interest no longer
      depend on the clock. */
  lemma ClosedLoanIsFrozen(l: Loan, rate: real, t1: Time, t2: Time)
    requires l.exit.Some?
    ensures DaysHeld(l, t1) == DaysHeld(l, t2)
    ensures InterestOwed(l, rate, t1) == InterestOwed(l, rate, t2)
  {
  }

  /** With a non-negative principal, interest grows with the days held and
      with the rate. */
  lemma InterestMonotone(l: Loan, rate1: real, rate2: real, t1: Time, t2: Time)
    requires l.principal >= 0.0
    requires 0.0 <= rate1 <= rate2
    requires 0.0 <= DaysHeld(l, t1) <= DaysHeld(l, t2)
    ensures InterestOwed(l, rate1, t1) <= InterestOwed(l, rate2, t2)
  {
    var p, d1, d2 := l.principal, DaysHeld(l, t1), DaysHeld(l, t2);
    ScaleMonotone(d1, d2, p);
    ScaleMonotone(p * d1, p * d2, rate1);
    ScaleMonotone(rate1, rate2, p * d2);
    assert p * d1 * rate1 <= p * d2 * rate2;
  }

  /** Multiplying by a non-negative factor keeps an inequality. */
  lemma ScaleMonotone(x: real, y: real, k: real)
    requires x <= y && k >= 0.0
    ensures x * k <= y * k && k * x <= k * y
  {
    assert (y - x) * k >= 0.0;
  }

  /** A principal of 1000 held for ten days at 0.1 percent a day owes 10. */
  lemma TenDaysAtDefaultRate(l: Loan, now: Time)
    requires l.principal == 1000.0
    requires HeldSeconds(l, now) == 10 * SecondsPerDay
    ensures InterestOwed(l, 0.1, now) == 10.0
  {
  }
}

=== FILE: ledger.dfy ===
/** The statements that change the `Customers` table: the insert of a new
    loan, the update that marks a loan returned, and the retention purge run
    at start-up. Each is a pure function from the ledger before to the ledger
    after; the ledger is listed in ascending id order, as the table is. */
module Ledger {
  import opened Wrappers
  import opened Loans
  import Seqs

  /** The largest id in the ledger, or 0 when it is empty. */
  function MaxId(ls: seq<Loan>): (m: nat)
    ensures forall i :: 0 <= i < |ls| ==> ls[i].id <= m
    ensures |ls| > 0 ==> exists i :: 0 <= i < |ls| && ls[i].id == m
    ensures |ls| == 0 ==> m == 0
    decreases |ls|
  {
    if |ls| == 0 then 0
    else
      var rest := MaxId(ls[1..]);
      if ls[0].id > rest then ls[0].id else rest
  }

  /** The id SQLite gives an `INTEGER PRIMARY KEY` on insert: one more than
      the largest id present, and 1 for an empty table. */
  function NextId(ls: seq<Loan>): (id: nat)
    ensures id >= 1
    ensures forall i :: 0 <= i < |ls| ==> ls[i].id < id
    ensures |ls| > 0 ==> exists i :: 0 <= i < |ls| && ls[i].id == id - 1
    ensures |ls| == 0 ==> id == 1
  {
    MaxId(ls) + 1
  }

  /** Why an insert is refused: the material text fails the column's `CHECK`. */
  datatype AddError = MaterialRejected(text: string)

  /** Inserts a new loan entered at `now`: status `Active`, no exit time, a
      fresh id. The material arrives as text and must pass the `CHECK`
      constraint; when it does not, nothing is stored. */
  function AddLoan(ls: seq<Loan>, name: string, phone: string, material: string,
                   item: string, principal: real, now: Time): (r: Result<seq<Loan>, AddError>)
    ensures r.Err? <==> ParseMaterial(material).None?
    ensures r.Err? ==> r.error == MaterialRejected(material)
    ensures r.Ok? ==> |r.value| == |ls| + 1 && r.value[..|ls|] == ls
    ensures r.Ok? ==>
      var n := r.value[|ls|];
      && n.status == Active && n.exit == None && n.entry == now
      && n.name == name && n.phone == phone && MaterialName(n.material) == material
      && n.item == item && n.principal == principal
      && (forall i :: 0 <= i < |ls| ==> ls[i].id != n.id)
  {
    match ParseMaterial(material)
    case None => Err(MaterialRejected(material))
    case Some(m) =>
      Ok(ls + [Loan(NextId(ls), name, phone, m, item, now, None, principal, Active)])
  }

  /** The effect of the update on one row: the row with the id becomes
      returned at `now`, keeping everything else; any other row is kept. */
  function Close(l: Loan, id: int, now: Time): (r: Loan)
    ensures l.id == id ==> r.status == Returned && r.exit == Some(now)
    ensures l.id == id ==> r.(status := l.status, exit := l.exit) == l
    ensures l.id != id ==> r == l
  {
    if l.id == id then l.(status := Returned, exit := Some(now)) else l
  }

  /** Marks every loan with id `id` returned at `now`. The update has no
      guard: an unknown id changes nothing, and an already returned loan gets
      its exit time overwritten. */
  function MarkReturned(ls: seq<Loan>, id: int, now: Time): (r: seq<Loan>)
    ensures |r| == |ls|
    ensures forall i :: 0 <= i < |ls| && ls[i].id != id ==> r[i] == ls[i]
    ensures forall i :: 0 <= i < |ls| && ls[i].id == id ==>
      && r[i].status == Returned && r[i].exit == Some(now)
      && r[i] == ls[i].(status := r[i].status, exit := r[i].exit)
  {
    seq(|ls|, i requires 0 <= i < |ls| => Close(ls[i], id, now))
  }

  /** A loan the purge deletes: returned, with an exit time before `cutoff`.
      A missing exit time compares as SQL `NULL` and deletes nothing. */
  predicate Expired(l: Loan, cutoff: Time)
    ensures Expired(l, cutoff) ==> l.status == Returned
    ensures Consistent(l) ==> (Expired(l, cutoff) <==> l.status == Returned && l.exit.value < cutoff)
  {
    l.status == Returned && l.exit.Some? && l.exit.value < cutoff
  }

  /** Deletes the returned loans whose exit time precedes `cutoff` (the
      moment three months before start-up) and keeps the rest in order. */
  function Purge(ls: seq<Loan>, cutoff: Time): (r: seq<Loan>)
    ensures forall i :: 0 <= i < |r| ==> r[i] in ls && !Expired(r[i], cutoff)
    ensures forall i :: 0 <= i < |ls| && !Expired(ls[i], cutoff) ==> ls[i] in r
    ensures forall i :: 0 <= i < |ls| && ls[i].status == Active ==> ls[i] in r
    ensures forall i :: 0 <= i < |r| && r[i].status == Returned && r[i].exit.Some? ==>
      r[i].exit.value >= cutoff
  {
    Seqs.Filter((l: Loan) => !Expired(l, cutoff), ls)
  }

  /** Adding a loan keeps the ledger well formed. */
  lemma AddPreservesWellFormed(ls: seq<Loan>, name: string, phone: string, material: string,
                               item: string, principal: real, now: Time)
    requires WellFormed(ls)
    ensures var r := AddLoan(ls, name, phone, material, item, principal, now);
      r.Ok? ==> WellFormed(r.value)
  {
  }

  /** Marking a loan returned keeps the ledger well formed, provided the
      clock has not gone back past any entry time. */
  lemma MarkReturnedPreservesWellFormed(ls: seq<Loan>, id: int, now: Time)
    requires WellFormed(ls)
    requires EnteredBy(ls, now)
    ensures WellFormed(MarkReturned(ls, id, now))
  {
  }

  /** An id no loan carries leaves the ledger as it was. */
  lemma MarkUnknownIdIsNoOp(ls: seq<Loan>, id: int, now: Time)
    requires forall i :: 0 <= i < |ls| ==> ls[i].id != id
    ensures MarkReturned(ls, id, now) == ls
  {
  }

  /** Marking the same loan a second time is not refused: it stays returned
      and only the later exit time survives. */
  lemma MarkTwiceKeepsLastExit(ls: seq<Loan>, id: int, first: Time, second: Time)
    ensures MarkReturned(MarkReturned(ls, id, first), id, second) == MarkReturned(ls, id, second)
  {
  }

  /** Purging a second time with the same cutoff deletes nothing more. */
  lemma PurgeIdempotent(ls: seq<Loan>, cutoff: Time)
    ensures Purge(Purge(ls, cutoff), cutoff) == Purge(ls, cutoff)
  {
    Seqs.FilterIdempotent((l: Loan) => !Expired(l, cutoff), ls);
  }

  /** The purge keeps the ledger well formed. */
  lemma PurgePreservesWellFormed(ls: seq<Loan>, cutoff: Time)
    requires WellFormed(ls)
    ensures WellFormed(Purge(ls, cutoff))
  {
    Seqs.FilterKeepsAscending((l: Loan) => !Expired(l, cutoff), IdOf, ls);
  }

  /** Ids are not reserved: when the purge deletes the newest loan, the next
      insert receives an id no larger than that loan's, so ids of deleted
      loans are handed out again. */
  lemma PurgeOfNewestLowersNextId(ls: seq<Loan>, cutoff: Time)
    requires WellFormed(ls)
    requires |ls| > 0 && Expired(ls[|ls| - 1], cutoff)
    ensures NextId(Purge(ls, cutoff)) <= ls[|ls| - 1].id
  {
    var r := Purge(ls, cutoff);
    var last := ls[|ls| - 1];
    forall i | 0 <= i < |r|
      ensures r[i].id < last.id
    {
      var k :| 0 <= k < |ls| && ls[k] == r[i];
      assert k != |ls| - 1;
      assert IdOf(ls[k]) < IdOf(ls[|ls| - 1]);
    }
    if |r| > 0 {
      var j :| 0 <= j < |r| && r[j].id == NextId(r) - 1;
    }
  }

  /** An example: of two loans, the newer one (id 2) is returned and purged;
      the next insert receives id 2 again. */
  lemma PurgedIdIsReused()
    ensures var old1 := Loan(1, "A", "1", Gold, "Ring", 0, None, 100.0, Active);
      var old2 := Loan(2, "B", "2", Silver, "Chain", 0, Some(10), 100.0, Returned);
      var kept := Purge([old1, old2], 20);
      var r := AddLoan(kept, "C", "3", "Gold", "Coin", 100.0, 30);
      r.Ok? && r.value[|r.value| - 1].id == old2.id
  {
    var old1 := Loan(1, "A", "1", Gold, "Ring", 0, None, 100.0, Active);
    var old2 := Loan(2, "B", "2", Silver, "Chain", 0, Some(10), 100.0, Returned);
    var keep := (l: Loan) => !Expired(l, 20);
    assert [old1, old2][1..] == [old2] && [old2][1..] == [];
    assert Seqs.Filter(keep, [old2]) == [];
    assert Purge([old1, old2], 20) == [old1];
  }
}

=== FILE: loans.dfy ===
/** The rows of the `Customers` table: one pawn loan each. Times are whole
    seconds since 1970-01-01 00:00:00 UTC, the clock SQLite's
    `CURRENT_TIMESTAMP` reads. */
module Loans {
  import opened Wrappers
  import Seqs

  /** The metal of the pawned item: the two non-NULL values the table's
      `CHECK` names. The `CHECK` would also pass NULL, but the program never
      stores it: the material comes from a two-item combo box. */
  datatype Material = Gold | Silver

  /** The lifecycle state of a loan: the two non-NULL values the table's
      `CHECK` names. The program writes only these literals, never NULL. */
  datatype Status = Active | Returned

  /** Whole seconds since 1970-01-01 00:00:00 UTC; time 0 is a midnight. */
  type Time = int

  const SecondsPerDay: int := 86400

  datatype Loan = Loan(
    id: nat,
    name: string,
    phone: string,
    material: Material,
    item: string,
    entry: Time,
    exit: Option<Time>,
    principal: real,
    status: Status)

  /** The text stored in the `MaterialType` column. */
  function MaterialName(m: Material): string {
    match m
    case Gold => "Gold"
    case Silver => "Silver"
  }

  /** The `CHECK(MaterialType IN ('Gold', 'Silver'))` constraint: the text is
      accepted exactly when it names one of the two materials. */
  function ParseMaterial(s: string): (r: Option<Material>)
    ensures r.Some? <==> s == "Gold" || s == "Silver"
    ensures r.Some? ==> MaterialName(r.value) == s
  {
    if s == "Gold" then Some(Gold)
    else if s == "Silver" then Some(Silver)
    else None
  }

  /** Storing a material and reading it back yields the same material. */
  lemma MaterialRoundTrip(m: Material)
    ensures ParseMaterial(MaterialName(m)) == Some(m)
  {
  }

  /** A loan's exit time is set exactly when it is returned, and never
      precedes its entry time. */
  predicate Consistent(l: Loan) {
    && (l.status == Returned <==> l.exit.Some?)
    && (l.exit.Some? ==> l.entry <= l.exit.value)
  }

  function IdOf(l: Loan): int {
    l.id
  }

  /** The ledger as the table lists it: in ascending rowid order, so ids are
      distinct; every id at least 1, as SQLite assigns them; every row
      consistent. */
  ghost predicate WellFormed(ls: seq<Loan>) {
    && Seqs.Ascending(IdOf, ls)
    && (forall i :: 0 <= i < |ls| ==> ls[i].id >= 1 && Consistent(ls[i]))
  }

  /** No loan in the ledger was entered after `now`. */
  ghost predicate EnteredBy(ls: seq<Loan>, now: Time) {
    forall i :: 0 <= i < |ls| ==> ls[i].entry <= now
  }
}

=== FILE: search.dfy ===
/** The search box: a loan is listed when its name, phone or item name
    contains the query, ignoring ASCII case (`LIKE '%query%'` on each of
    the three columns, joined by `OR`). */
module Search {
  import opened Loans
  import Text
  import Seqs

  /** The `WHERE` clause for one loan. The empty query matches every loan,
      and a query longer than all three fields matches none. */
  predicate Matches(l: Loan, q: string)
    ensures q == "" ==> Matches(l, q)
    ensures |q| > |l.name| && |q| > |l.phone| && |q| > |l.item| ==> !Matches(l, q)
  {
    Text.EmptyQueryContained(l.name);
    Text.ContainsSelf(l.name, q);
    Text.ContainsSelf(l.phone, q);
    Text.ContainsSelf(l.item, q);
    Text.Contains(l.name, q) || Text.Contains(l.phone, q) || Text.Contains(l.item, q)
  }

  /** The loans matching `q`, in ledger order. */
  function Search(ls: seq<Loan>, q: string): (r: seq<Loan>)
    ensures |r| <= |ls|
    ensures forall i :: 0 <= i < |r| ==> r[i] in ls && Matches(r[i], q)
    ensures forall i :: 0 <= i < |ls| && Matches(ls[i], q) ==> ls[i] in r
  {
    Seqs.Filter((l: Loan) => Matches(l, q), ls)
  }

  /** The empty query lists every loan, whatever its status, in ledger
      order: every name contains the empty text. */
  lemma EmptyQueryListsAll(ls: seq<Loan>)
    ensures Search(ls, "") == ls
  {
    forall i | 0 <= i < |ls|
      ensures Matches(ls[i], "")
    {
      Text.EmptyQueryContained(ls[i].name);
    }
    Seqs.FilterKeepsAll((l: Loan) => Matches(l, ""), ls);
  }

  /** Queries that differ only in the case of ASCII letters list the same
      loans. */
  lemma QueryCaseIrrelevant(ls: seq<Loan>, q: string, q': string)
    requires |q| == |q'|
    requires forall k :: 0 <= k < |q| ==> Text.Fold(q[k]) == Text.Fold(q'[k])
    ensures Search(ls, q) == Search(ls, q')
  {
    forall i | 0 <= i < |ls|
      ensures Matches(ls[i], q) == Matches(ls[i], q')
    {
      Text.CaseOfQueryIrrelevant(ls[i].name, q, q');
      Text.CaseOfQueryIrrelevant(ls[i].phone, q, q');
      Text.CaseOfQueryIrrelevant(ls[i].item, q, q');
    }
    Seqs.FilterCongruent((l: Loan) => Matches(l, q), (l: Loan) => Matches(l, q'), ls);
  }

  /** The search result keeps the ledger's ascending id order. */
  lemma SearchKeepsIdOrder(ls: seq<Loan>, q: string)
    requires WellFormed(ls)
    ensures WellFormed(Search(ls, q))
  {
    Seqs.FilterKeepsAscending((l: Loan) => Matches(l, q), IdOf, ls);
  }

  /** Searching "go" finds a loan whose item is "Gold Ring". */
  lemma GoFindsGoldRing(l: Loan)
    requires l.item == "Gold Ring"
    ensures Matches(l, "go")
    ensures l in Search([l], "go")
  {
    Text.GoInGoldRing();
  }
}

=== FILE: seqs.dfy ===
/** Order-preserving selection over sequences: the shape shared by the SQL
    `WHERE` clauses of the ledger (purge, search, overdue alert). */
module Seqs {

  /** The elements of `s` that satisfy `p`, in their original order. */
  function Filter<T>(p: T -> bool, s: seq<T>): (r: seq<T>)
    ensures |r| <= |s|
    ensures forall i :: 0 <= i < |r| ==> r[i] in s && p(r[i])
    ensures forall i :: 0 <= i < |s| && p(s[i]) ==> s[i] in r
    decreases |s|
  {
    if |s| == 0 then []
    else if p(s[0]) then [s[0]] + Filter(p, s[1..])
    else Filter(p, s[1..])
  }

  /** A filter whose predicate holds everywhere keeps the whole sequence. */
  lemma {:induction false} FilterKeepsAll<T>(p: T -> bool, s: seq<T>)
    requires forall i :: 0 <= i < |s| ==> p(s[i])
    ensures Filter(p, s) == s
    decreases |s|
  {
    if |s| > 0 {
      FilterKeepsAll(p, s[1..]);
      assert [s[0]] + s[1..] == s;
    }
  }

  /** Filtering by `p` after filtering by a weaker `q` is the same as filtering
      by `p` alone. */
  lemma {:induction false} FilterAbsorbs<T>(p: T -> bool, q: T -> bool, s: seq<T>)
    requires forall i :: 0 <= i < |s| && p(s[i]) ==> q(s[i])
    ensures Filter(p, Filter(q, s)) == Filter(p, s)
    decreases |s|
  {
    if |s| > 0 {
      FilterAbsorbs(p, q, s[1..]);
      if q(s[0]) {
        assert Filter(q, s) == [s[0]] + Filter(q, s[1..]);
        assert (Filter(q, s))[1..] == Filter(q, s[1..]);
      }
    }
  }

  /** Predicates that agree on every element select the same elements. */
  lemma {:induction false} FilterCongruent<T>(p: T -> bool, q: T -> bool, s: seq<T>)
    requires forall i :: 0 <= i < |s| ==> p(s[i]) == q(s[i])
    ensures Filter(p, s) == Filter(q, s)
    decreases |s|
  {
    if |s| > 0 {
      FilterCongruent(p, q, s[1..]);
    }
  }

  /** Filtering twice by the same predicate is filtering once. */
  lemma FilterIdempotent<T>(p: T -> bool, s: seq<T>)
    ensures Filter(p, Filter(p, s)) == Filter(p, s)
  {
    FilterAbsorbs(p, p, s);
  }

  /** `key` is strictly increasing along `s`. */
  ghost predicate Ascending<T>(key: T -> int, s: seq<T>) {
    forall i, j :: 0 <= i < j < |s| ==> key(s[i]) < key(s[j])
  }

  /** A filter keeps a sequence strictly increasing by a key. */
  lemma {:induction false} FilterKeepsAscending<T>(p: T -> bool, key: T -> int, s: seq<T>)
    requires Ascending(key, s)
    ensures Ascending(key, Filter(p, s))
    decreases |s|
  {
    if |s| > 0 {
      FilterKeepsAscending(p, key, s[1..]);
      if p(s[0]) {
        HeadBelowFilteredTail(p, key, s);
        ConsAscending(key, s[0], Filter(p, s[1..]));
      }
    }
  }

  /** Every element the filter keeps from the tail lies above the head. */
  lemma HeadBelowFilteredTail<T>(p: T -> bool, key: T -> int, s: seq<T>)
    requires |s| > 0 && Ascending(key, s)
    ensures forall j :: 0 <= j < |Filter(p, s[1..])| ==> key(s[0]) < key(Filter(p, s[1..])[j])
  {
    var tail := Filter(p, s[1..]);
    forall j | 0 <= j < |tail|
      ensures key(s[0]) < key(tail[j])
    {
      assert tail[j] in s[1..];
      var k :| 0 <= k < |s| - 1 && s[k + 1] == tail[j];
    }
  }

  /** Putting an element below all of an ascending sequence in front keeps
      it ascending. */
  lemma ConsAscending<T>(key: T -> int, x: T, t: seq<T>)
    requires Ascending(key, t)
    requires forall j :: 0 <= j < |t| ==> key(x) < key(t[j])
    ensures Ascending(key, [x] + t)
  {
    var r := [x] + t;
    forall i, j | 0 <= i < j < |r|
      ensures key(r[i]) < key(r[j])
    {
      assert r[j] == t[j - 1];
      if i > 0 {
        assert r[i] == t[i - 1];
      }
    }
  }
}

=== FILE: settings.dfy ===
/** The `Settings` key/value table. Only one key is used: the global daily
    interest rate, in percent per day. Values are stored as text in the
    table; here they are held as the numbers that text denotes. */
module Settings {
  import opened Wrappers

  type Store = map<string, real>

  const RateKey: string := "DailyInterestRate"

  /** The rate seeded on first start: 0.1 percent per day. */
  const DefaultRate: real := 0.1

  /** The stored daily rate, or `None` when the key is absent (the scalar
      sub-query then yields `NULL`). */
  function Rate(s: Store): (r: Option<real>)
    ensures r.Some? <==> RateKey in s
    ensures r.Some? ==> r.value == s[RateKey]
  {
    if RateKey in s then Some(s[RateKey]) else None
  }

  /** `INSERT OR IGNORE` of the default rate: it is written only when no rate
      is stored, and a stored rate is never replaced. */
  function SeedDefault(s: Store): (r: Store)
    ensures RateKey in r
    ensures RateKey in s ==> r == s
    ensures RateKey !in s ==> r[RateKey] == DefaultRate
    ensures r.Keys == s.Keys + {RateKey}
    ensures forall k :: k in s && k != RateKey ==> r[k] == s[k]
  {
    if RateKey in s then s else s[RateKey := DefaultRate]
  }

  /** `UPDATE ... WHERE Key = 'DailyInterestRate'`: overwrites a stored rate;
      when no rate row exists the update matches nothing and stores nothing. */
  function SaveRate(s: Store, rate: real): (r: Store)
    ensures RateKey in s ==> Rate(r) == Some(rate)
    ensures RateKey !in s ==> r == s
    ensures r.Keys == s.Keys
    ensures forall k :: k in s && k != RateKey ==> r[k] == s[k]
  {
    if RateKey in s then s[RateKey := rate] else s
  }

  /** Seeding twice is seeding once. */
  lemma SeedIdempotent(s: Store)
    ensures SeedDefault(SeedDefault(s)) == SeedDefault(s)
  {
  }

  /** A rate saved after start-up is what later reads see, and the seed at
      the next start-up does not revert it to the default. */
  lemma SavedRateSurvivesRestart(s: Store, rate: real)
    ensures Rate(SaveRate(SeedDefault(s), rate)) == Some(rate)
    ensures SeedDefault(SaveRate(SeedDefault(s), rate)) == SaveRate(SeedDefault(s), rate)
  {
  }

  /** On a fresh table the first start-up yields the default rate. */
  lemma FreshStoreGetsDefault()
    ensures Rate(SeedDefault(map[])) == Some(DefaultRate)
  {
  }
}

=== FILE: text.dfy ===
/** Case-insensitive substring matching, the meaning the ledger gives to
    `field LIKE '%query%'`: SQLite's `LIKE` ignores case for the 26 ASCII
    letters only and compares every other character exactly. */
module Text {

  /** Maps an ASCII upper-case letter to its lower-case form; every other
      character is its own fold. */
  function Fold(c: char): (r: char)
    ensures 'A' <= c <= 'Z' ==> 'a' <= r <= 'z' && r as int - c as int == 32
    ensures !('A' <= c <= 'Z') ==> r == c
  {
    if 'A' <= c <= 'Z' then (c as int + 32) as char else c
  }

  /** `q` occurs in `s` starting at offset `i`, up to ASCII case. */
  predicate OccursAt(s: string, q: string, i: int)
    requires 0 <= i && i + |q| <= |s|
  {
    forall k :: 0 <= k < |q| ==> Fold(s[i + k]) == Fold(q[k])
  }

  /** `s` contains `q` as a substring, up to ASCII case. */
  predicate Contains(s: string, q: string) {
    exists i :: 0 <= i && i + |q| <= |s| && OccursAt(s, q, i)
  }

  /** Scans `s` for an occurrence of `q` position by position. */
  method ContainsIgnoringCase(s: string, q: string) returns (found: bool)
    ensures found <==> Contains(s, q)
  {
    if |q| > |s| {
      return false;
    }
    var i := 0;
    while i + |q| <= |s|
      invariant 0 <= i <= |s| - |q| + 1
      invariant forall j :: 0 <= j < i ==> !OccursAt(s, q, j)
      decreases |s| - i
    {
      var k := 0;
      while k < |q| && Fold(s[i + k]) == Fold(q[k])
        invariant 0 <= k <= |q|
        invariant forall m :: 0 <= m < k ==> Fold(s[i + m]) == Fold(q[m])
        decreases |q| - k
      {
        k := k + 1;
      }
      if k == |q| {
        assert OccursAt(s, q, i);
        return true;
      }
      i := i + 1;
    }
    return false;
  }

  /** The empty query occurs in every text. */
  lemma EmptyQueryContained(s: string)
    ensures Contains(s, "")
  {
    assert OccursAt(s, "", 0);
  }

  /** Every text contains itself, and a longer query never occurs. */
  lemma ContainsSelf(s: string, q: string)
    ensures Contains(s, s)
    ensures |q| > |s| ==> !Contains(s, q)
  {
    assert OccursAt(s, s, 0);
  }

  /** Changing the case of ASCII letters in the query does not change the
      answer. */
  lemma {:induction false} CaseOfQueryIrrelevant(s: string, q: string, q': string)
    requires |q| == |q'|
    requires forall k :: 0 <= k < |q| ==> Fold(q[k]) == Fold(q'[k])
    ensures Contains(s, q) <==> Contains(s, q')
  {
    if Contains(s, q) {
      var i :| 0 <= i && i + |q| <= |s| && OccursAt(s, q, i);
      assert OccursAt(s, q', i);
    }
    if Contains(s, q') {
      var i :| 0 <= i && i + |q'| <= |s| && OccursAt(s, q', i);
      assert OccursAt(s, q, i);
    }
  }

  /** "go" is found in "Gold Ring". */
  lemma GoInGoldRing()
    ensures Contains("Gold Ring", "go")
  {
    assert OccursAt("Gold Ring", "go", 0);
  }
}

=== FILE: wrappers.dfy ===
/** Optional values and results with an error, as used by the ledger model.
    `None` plays the part of an SQL NULL; `Err` the part of a failed statement. */
module Wrappers {

  datatype Option<+T> = None | Some(value: T) {

    /** The wrapped value, or `default` when there is none (SQL `COALESCE`). */
    function GetOr(default: T): T {
      match this
      case Some(v) => v
      case None => default
    }
  }

  datatype Result<+T, +E> = Ok(value: T) | Err(error: E)
}
